=== FILE: README.md ===
# Instance packager: configuration resolution and folder matching

This project models the decision layer of the openFPGA instance packager. The
packager reads one `instance-packager.json` per emulator core. For every game
folder under `Assets/<platform_id>/common` it decides whether the folder holds
the files the core's data slots ask for. It then resolves which configuration
values apply to that folder: the global ones, or those of a per-folder
override. Finally it picks the name of the instance descriptor it writes.

The model is functional. Configurations, slots and overrides are immutable
datatypes. Every operation is a pure function. The filesystem appears only
through the glob call. That call is a function parameter `Glob`, which maps a
folder and a pattern to the raw search result. The raw result is either
`BadPattern` or a sequence of entries. Each entry is `Found(path)` or
`Unreadable`, the per-entry I/O error. Paths are sequences of the components
that `Path::components` yields. `FileName` and `FileStem` follow the standard
library's rules: the stem is the text before the last dot, unless that dot is
the leading dot of the name.

Where the source calls `unwrap()`, the model returns an explicit `Panic`
outcome. Errors that the source returns with `?` become `Err`. So
`Outcome = Ok | Err | Panic`.

Modules:
- `Outcomes` holds `Option` and `Outcome`.
- `Paths` holds path components, `file_name` and `file_stem`.
- `GlobStuff` is `src/glob_stuff.rs`: the raw glob and the hidden-file filter.
- `SerdeStructs` is `src/serde_structs.rs`: the configuration, override
  resolution, filename derivation and the default descriptor.
- `Lib` is the folder matcher of `src/lib.rs`.
- `Scenarios` holds the cases of the source's unit tests.

The packager has two hidden-name filters: one on glob results (`src/glob_stuff.rs:11-16`) and one on the folder walk (`src/lib.rs:46-56`). The folder matcher uses neither, and the model follows the code:
- The folder matcher (`src/lib.rs:84-88`) calls the glob directly. It does not
  call `get_glob_paths`. So hidden files count towards a slot's matches.
- In the folder matcher, a pattern that does not parse aborts through
  `unwrap()`. It is not returned as an error.
- The unit tests at `src/lib.rs:128-139` build slots without `as_filename`,
  a field the record declares. The model's slots always carry that field.

## Model

| member | source | states |
|---|---|---|
| `Paths.FileName` | src/glob_stuff.rs:12-14 | A path has a file name exactly when its last component is a normal name, and the name is that component. |
| `Paths.FileNameOfChild` | src/lib.rs:112 | Joining a name onto any folder gives that name back as the file name. A path ending in the root or in `..` has none. |
| `Paths.FileStem` | src/serde_structs.rs:110 | A path has a stem exactly when it has a file name. |
| `Paths.StemExtensionRoundTrip` | src/serde_structs.rs:110 | The stem, then a dot and the extension when there is one, rebuilds the file name. The extension contains no dot. |
| `GlobStuff.FoundPaths` | src/glob_stuff.rs:10 | The successful entries: every found path is in the result, and the result holds only found paths. When every entry succeeded, none is lost. |
| `GlobStuff.FoundPathsAppend` | src/lib.rs:84-88 | Collecting the successful entries distributes over concatenation. A found path gives itself and an error gives nothing, so the result is exactly the found paths in traversal order, which is the count the matcher uses. |
| `GlobStuff.FilterVisible` | src/glob_stuff.rs:9-17 | Never an error. Aborts exactly when some found path has no final component. Otherwise every kept path is visible, every visible found path is kept, and the kept paths keep the traversal's order, as a subsequence of the found paths. |
| `GlobStuff.GetGlobPaths` | src/glob_stuff.rs:7-18 | A pattern that does not parse is an error for the whole call, and only that is an error. The success case is characterised as in `FilterVisible`. |
| `GlobStuff.UnreadableEntryIgnored` | src/glob_stuff.rs:10 | A per-entry error anywhere in the raw result is dropped silently. The result equals the result without that entry. |
| `GlobStuff.HiddenEntryIgnored` | src/glob_stuff.rs:11-16 | A found path whose name starts with `.` changes nothing, wherever it appears. |
| `GlobStuff.AllVisibleKept` | src/glob_stuff.rs:8-17 | When every found path is visible, the result is exactly the found paths, in order. |
| `SerdeStructs.GetSlots` | src/serde_structs.rs:45-55 | The slot list is the override's list, whole, when the folder has an override that sets slots. It is the global list when there is no overrides map, no entry for the folder, or an entry without slots. |
| `SerdeStructs.GetMemoryWrites` | src/serde_structs.rs:57-72 | The memory writes are the override's list when it is present. Otherwise they are the global list when that is present, and otherwise empty. |
| `SerdeStructs.GetCoreSelect` | src/serde_structs.rs:74-84 | The core select is the override's when it is present, otherwise the global one. The result is absent only when the global one is absent. |
| `SerdeStructs.OtherFolderOverrideIrrelevant` | src/serde_structs.rs:44-96 | Lookup is keyed by the exact folder name. Setting another folder's override changes none of this folder's slots, writes, core select or file name. This holds also when the configuration had no overrides map and the new override creates one. |
| `SerdeStructs.OverrideHidesGlobal` | src/serde_structs.rs:45-84 | For a folder whose override sets a field, changing the global value of that field changes nothing. |
| `SerdeStructs.Verdict` | src/serde_structs.rs:105-111 | A settling slot passes on its search's pattern error and its abort, and only those. When the visible list is non-empty, the result is always `Ok` with the stem of the first visible match. |
| `SerdeStructs.StemFromSlots` | src/serde_structs.rs:98-112 | When no name-source slot has a match (or an error), the result is the fallback. Otherwise the first such slot in declared order decides: the stem of its first visible match, or its error or abort. |
| `SerdeStructs.GetFilename` | src/serde_structs.rs:86-115 | A folder without a leaf name aborts. A file name override for the leaf name wins. Otherwise the first global slot with `as_filename` true that matches anything decides. Failing that, the result is the leaf name. |
| `SerdeStructs.FilenameOverrideSkipsGlob` | src/serde_structs.rs:89-96 | With a file name override, the name is that override whatever the filesystem holds. |
| `SerdeStructs.NameSources` | src/serde_structs.rs:98-103 | Keeps exactly the slots whose `as_filename` is `Some(true)`, and only those, in declared order (a subsequence of the slots). Each kept slot appears as many times as in the input. |
| `SerdeStructs.StemIgnoresOtherSlots` | src/serde_structs.rs:98-112 | Slots whose `as_filename` is absent or false never influence the scan: scanning only the name sources gives the same outcome. |
| `SerdeStructs.FilenameIgnoresOverrideSlots` | src/serde_structs.rs:98-103 | The override's slot list is never scanned: replacing it leaves the derived name unchanged. |
| `SerdeStructs.StemNoAbort` | src/serde_structs.rs:105-111 | The scan aborts only when a name source's search yields a path without a final component. |
| `SerdeStructs.FilenameAbortCauses` | src/serde_structs.rs:86-115 | Filename derivation aborts only for a folder without a leaf name, or on a name source's path without a final component. Otherwise it succeeds or reports a bad pattern. |
| `SerdeStructs.NewInstanceJson` | src/serde_structs.rs:142-154 | The default descriptor has magic `APF_VER_1`, an empty data path, no data slots, no memory writes and no core select. |
| `Lib.CheckIfDirMatchesSlots` | src/lib.rs:75-99 | Never an error. The folder matches iff every required slot's search parses, finds at least one file, and finds at most one for `Single`. If not, the first failing slot in declared order decides: an abort on a bad pattern, otherwise a rejection. |
| `Lib.ScanStopsAtFirstFailure` | src/lib.rs:79-94 | Slots after a deciding failure are not examined: appending slots keeps a rejection or abort. After a passing prefix, the answer is the suffix's. |
| `Lib.RequiredSlots` | src/lib.rs:79-80 | Keeps exactly the required slots, and only those, in declared order (a subsequence of the slots). Each kept slot appears as many times as in the input. |
| `Lib.OptionalSlotsIrrelevant` | src/lib.rs:79-98 | Slots that are not required never affect the answer: dropping them all gives the same answer, whatever their searches find. |
| `Lib.OneRequiredSlot` | src/lib.rs:90-93 | A required `Single` slot accepts exactly one match. `Ascending` and `Descending` accept any positive count. Zero matches is a rejection. |
| `Lib.CheckIfDirMatchesVisibleSlots` | src/lib.rs:75-99 | Corrected matcher, counting through `get_glob_paths`: the folder matches iff every required slot's visible matches are acceptable. An error comes only from a required slot's unparsable pattern. |
| `Lib.HiddenFileIgnoredByVisibleMatch` | src/glob_stuff.rs:11-16 | Adding a hidden file to any search leaves the corrected matcher's answer unchanged. |
| `Lib.HiddenFileRejectsFolder` | src/lib.rs:84-93 | A folder with `game.cue` and `._game.cue` is rejected as written by a required `Single` slot `*.cue`. The corrected matcher accepts it, and its visible match is the one filename derivation sees. |
| `Scenarios.SlotsOverrideCase` | src/serde_structs.rs:169-205 | `overrider` gets the override's one slot `file_B.bin`. `non_overrider` gets the global `file_A.bin`. |
| `Scenarios.MemoryWritesOverrideCase` | src/serde_structs.rs:207-261 | The global single write applies to other folders. The override's two writes apply to `overrider`. |
| `Scenarios.CoreSelectOverrideCase` | src/serde_structs.rs:263-301 | The global core select `(123, true)` applies to other folders. The override `(456, false)` applies to `overrider`. |
| `Scenarios.FilenameFallbackCase` | src/serde_structs.rs:303-332 | With no name-source slots and the override keyed `overrider`, `game_name` and `overridden_file_name` both get their leaf name through the fallback, whatever the filesystem holds. The folder `overridden_file_name` has no override of its own. `overrider` gets the override. |
| `Scenarios.FilenameFromCueCase` | src/serde_structs.rs:377-380 | A `*.cue` name source names the output `cue_file_name` after the folder's cue sheet. |
| `Scenarios.FilenameOverrideBeatsCueCase` | src/serde_structs.rs:382-385 | The overridden folder keeps `overridden_file_name`, though it holds a cue sheet. |
| `Scenarios.MatcherCases` | src/lib.rs:118-204 | One `.bin` plus two `.cue` files match. Two `.bin` files, or none, do not. |

## Findings

| source | as written | input that shows it | evidently intended | confidence | as-written member | corrected member |
|---|---|---|---|---|---|---|
| src/lib.rs:84-93 | The matcher counts every raw glob match, hidden files included. It unwraps the pattern instead of returning its error. | A folder holding `game.cue` and `._game.cue`, with one required `Single` slot `*.cue`. The folder is rejected, though the hidden-file filter used for the file name sees one cue sheet. | Count matches through `get_glob_paths`, as the rest of the packager's file searches do. Hidden files are ignored and a bad pattern propagates as an error. | medium, not executed | `Lib.HiddenFileRejectsFolder` (on `Lib.CheckIfDirMatchesSlots`) | `Lib.CheckIfDirMatchesVisibleSlots` (with `Lib.HiddenFileIgnoredByVisibleMatch`) |

No other member of the model calls the matcher: its caller, the folder walk, is not modelled. So the corrected matcher stands beside the as-written one.

## Left out

- Core discovery (`find_cores_with_package_json`, `src/lib.rs:10-28`) is left out. It only lists directories and checks that files exist.
- `build_jsons_for_core` (`src/lib.rs:32-73`) is left out. It reads and parses the configuration file and walks the asset tree. In this snapshot it is also unfinished: it prints the match result and builds nothing.
- Descriptor assembly and the slot-limit skip are left out, because no implementation of either exists in the source. The integration tests only expect them: a `data_path` ending in `/` (tests/integration_test.rs:81, :101) and a skipped descriptor with its message (tests/integration_test.rs:170-187). How slot ids or orderings would be derived appears nowhere in the source.
- JSON (de)serialisation and the untagged shape matching of `SlotsCoresAndWrites` are left out. They are library behaviour, and the four shapes are a plain datatype here.
- Wildcard semantics and `Path::join` of the folder and the pattern are left out. Both live inside the `Glob` parameter.
- `to_str().unwrap()` on paths that are not valid UTF-8 is left out. Model strings are always valid text, so these aborts cannot occur.
- `src/bin.rs` (argument parsing, the interactive prompt) is left out. It is CLI plumbing.
- `src/instance_packer_json_structs.rs` is left out. It is not a module of the crate.
- The temporary-directory test fixtures are left out. Their files appear as glob answers instead.
- GlobStuff.GetGlobPaths: the contract gives soundness, completeness and order (a subsequence of the found paths). It does not state how many times a path that the raw result repeats is kept. `GlobStuff.AllVisibleKept` pins the result exactly when every found path is visible.
- Lib.CheckIfDirMatchesVisibleSlots: the contract characterises acceptance exactly. For rejections and errors it only says where an error can come from.

=== FILE: glob_stuff.dfy ===
/** The glob resolver: the raw result of a wildcard search, and the filter the
    packager puts in front of it (`get_glob_paths`). */
module GlobStuff {
  import opened Outcomes
  import opened Paths

  /** One item of the raw search: a path, or a per-entry I/O error (a
      directory that could not be read while matching). */
  datatype GlobEntry = Found(path: Path) | Unreadable

  /** The raw search: either the pattern did not parse, or the entries the
      filesystem traversal produced, in its order. */
  datatype RawGlob = BadPattern | Entries(entries: seq<GlobEntry>)

  /** The filesystem, seen only through the glob call: the raw result of
      searching for a pattern joined onto a folder. */
  type Glob = (Path, string) -> RawGlob

  /** A name is hidden when it starts with a dot. */
  predicate IsHiddenName(name: string)
  {
    |name| > 0 && name[0] == '.'
  }

  /** A path the filter keeps: it has a final component, and that component is
      not hidden. */
  predicate Visible(p: Path)
  {
    FileName(p).Some? && !IsHiddenName(FileName(p).value)
  }

  /** An entry on which the filter aborts: a path without a final component. */
  predicate Nameless(e: GlobEntry)
  {
    e.Found? && FileName(e.path).None?
  }

  /** No entry of the raw search lacks a final component. */
  predicate AllNamed(raw: RawGlob)
  {
    raw.Entries? ==> forall k :: 0 <= k < |raw.entries| ==> !Nameless(raw.entries[k])
  }

  /** The successful entries of a raw search, in order, errors dropped. */
  function FoundPaths(es: seq<GlobEntry>): (r: seq<Path>)
    ensures |r| <= |es|
    ensures forall i :: 0 <= i < |es| && es[i].Found? ==> es[i].path in r
    ensures forall k :: 0 <= k < |r| ==> Found(r[k]) in es
    ensures (forall i :: 0 <= i < |es| ==> es[i].Found?) ==> |r| == |es|
  {
    if |es| == 0 then []
    else if es[0].Found? then [es[0].path] + FoundPaths(es[1..])
    else FoundPaths(es[1..])
  }

  /** Collecting the successful entries distributes over concatenation, so
      together with the one-entry cases it fixes the result exactly: each
      found path once, per entry, in the traversal's order. */
  lemma {:induction false} FoundPathsAppend(a: seq<GlobEntry>, b: seq<GlobEntry>)
    ensures FoundPaths(a + b) == FoundPaths(a) + FoundPaths(b)
    ensures forall p :: FoundPaths([Found(p)]) == [p]
    ensures FoundPaths([Unreadable]) == []
  {
    forall p ensures FoundPaths([Found(p)]) == [p] {
      assert [Found(p)][1..] == [];
    }
    assert [Unreadable][1..] == [];
    if |a| == 0 {
      assert a + b == b;
    } else {
      assert (a + b)[1..] == a[1..] + b;
      FoundPathsAppend(a[1..], b);
    }
  }

  /** `a` can be obtained from `b` by deleting elements. */
  predicate IsSubsequence<T(==)>(a: seq<T>, b: seq<T>)
    decreases |b|
  {
    |a| <= |b| &&
    (|a| == 0 ||
     (a[0] == b[0] && IsSubsequence(a[1..], b[1..])) ||
     IsSubsequence(a, b[1..]))
  }

  /** The body of `get_glob_paths` once the pattern has parsed: drop per-entry
      errors, then drop paths whose final component is hidden. Asking a path
      without a final component for its name aborts. */
  function FilterVisible(es: seq<GlobEntry>): (r: Outcome<seq<Path>>)
    ensures !r.Err?
    ensures r.Panic? <==> exists i :: 0 <= i < |es| && Nameless(es[i])
    ensures r.Ok? ==> forall k :: 0 <= k < |r.value| ==> Visible(r.value[k])
    ensures r.Ok? ==> forall i :: 0 <= i < |es| && es[i].Found? && Visible(es[i].path) ==> es[i].path in r.value
    ensures r.Ok? ==> IsSubsequence(r.value, FoundPaths(es))
  {
    if |es| == 0 then Ok([])
    else
      var rest := FilterVisible(es[1..]);
      assert forall i :: 1 <= i < |es| ==> es[i] == es[1..][i - 1];
      match es[0]
      case Unreadable => rest
      case Found(p) =>
        if FileName(p).None? then Panic
        else if rest.Panic? then Panic
        else if IsHiddenName(FileName(p).value) then rest
        else Ok([p] + rest.value)
  }

  /** `get_glob_paths`: a pattern that does not parse is an error for the whole
      call; otherwise the visible successful matches, in the traversal's
      order. */
  function GetGlobPaths(raw: RawGlob): (r: Outcome<seq<Path>>)
    ensures r.Err? <==> raw.BadPattern?
    ensures r.Panic? <==> raw.Entries? && exists i :: 0 <= i < |raw.entries| && Nameless(raw.entries[i])
    ensures r.Ok? ==> forall k :: 0 <= k < |r.value| ==> Visible(r.value[k])
    ensures r.Ok? ==> forall i :: 0 <= i < |raw.entries| && raw.entries[i].Found? && Visible(raw.entries[i].path) ==> raw.entries[i].path in r.value
    ensures r.Ok? ==> IsSubsequence(r.value, FoundPaths(raw.entries))
  {
    match raw
    case BadPattern => Err(PatternError)
    case Entries(es) => FilterVisible(es)
  }

  /** Per-entry errors are dropped silently: an error anywhere in the raw
      result leaves the filtered result as it would be without it. */
  lemma {:induction false} UnreadableEntryIgnored(pre: seq<GlobEntry>, post: seq<GlobEntry>)
    ensures FilterVisible(pre + [Unreadable] + post) == FilterVisible(pre + post)
  {
    if |pre| == 0 {
      assert (pre + [Unreadable] + post)[1..] == post;
      assert pre + post == post;
    } else {
      assert (pre + [Unreadable] + post)[1..] == pre[1..] + [Unreadable] + post;
      assert (pre + post)[1..] == pre[1..] + post;
      UnreadableEntryIgnored(pre[1..], post);
    }
  }

  /** A hidden file anywhere in the raw result leaves the filtered result as it
      would be without it. */
  lemma {:induction false} HiddenEntryIgnored(pre: seq<GlobEntry>, p: Path, post: seq<GlobEntry>)
    requires FileName(p).Some? && IsHiddenName(FileName(p).value)
    ensures FilterVisible(pre + [Found(p)] + post) == FilterVisible(pre + post)
  {
    if |pre| == 0 {
      assert (pre + [Found(p)] + post)[1..] == post;
      assert pre + post == post;
    } else {
      assert (pre + [Found(p)] + post)[1..] == pre[1..] + [Found(p)] + post;
      assert (pre + post)[1..] == pre[1..] + post;
      HiddenEntryIgnored(pre[1..], p, post);
    }
  }

  /** When every successful entry is visible, the filter keeps all of them:
      the result is exactly the successful entries, in order. */
  lemma {:induction false} AllVisibleKept(es: seq<GlobEntry>)
    requires forall i :: 0 <= i < |es| && es[i].Found? ==> Visible(es[i].path)
    ensures FilterVisible(es) == Ok(FoundPaths(es))
  {
    if |es| > 0 {
      assert forall i :: 1 <= i < |es| ==> es[i] == es[1..][i - 1];
      AllVisibleKept(es[1..]);
    }
  }
}

=== FILE: lib.dfy ===
/** The folder matcher (`check_if_dir_matches_slots`): does a folder hold
    every file the required slots ask for? */
module Lib {
  import opened Outcomes
  import opened Paths
  import opened GlobStuff
  import opened SerdeStructs

  /** The number of successful entries of a raw search, hidden ones
      included. */
  function MatchCount(raw: RawGlob): nat
    requires raw.Entries?
  {
    |FoundPaths(raw.entries)|
  }

  /** A slot's search is acceptable: it parsed, found at least one file, and
      found exactly one when the slot is `Single`. */
  predicate SlotAccepts(s: DataSlotSpec, raw: RawGlob)
  {
    raw.Entries? && MatchCount(raw) >= 1 && (s.sort == Single ==> MatchCount(raw) <= 1)
  }

  /** A slot stands in the folder's way only when it is required and its
      search is not acceptable. */
  predicate Passes(s: DataSlotSpec, folder: Path, glob: Glob)
  {
    !s.required || SlotAccepts(s, glob(folder, s.filename))
  }

  /** Slot `i` is the first one in declared order that does not pass. */
  predicate FirstFailure(slots: seq<DataSlotSpec>, folder: Path, glob: Glob, i: int)
  {
    0 <= i < |slots| && !Passes(slots[i], folder, glob) &&
    forall j :: 0 <= j < i ==> Passes(slots[j], folder, glob)
  }

  /** `check_if_dir_matches_slots`, as written: the glob is called directly
      (so hidden files count and a pattern that does not parse aborts), and
      the scan returns at the first required slot that fails. */
  function CheckIfDirMatchesSlots(slots: seq<DataSlotSpec>, folder: Path, glob: Glob): (r: Outcome<bool>)
    ensures !r.Err?
    ensures r == Ok(true) <==> forall i :: 0 <= i < |slots| ==> Passes(slots[i], folder, glob)
    ensures forall i :: FirstFailure(slots, folder, glob, i) ==>
      r == (if glob(folder, slots[i].filename).BadPattern? then Panic else Ok(false))
    decreases |slots|
  {
    if |slots| == 0 then Ok(true)
    else
      var s := slots[0];
      var rest := CheckIfDirMatchesSlots(slots[1..], folder, glob);
      assert forall i :: 1 <= i < |slots| ==> slots[i] == slots[1..][i - 1];
      assert forall i :: FirstFailure(slots, folder, glob, i) && i > 0 ==> FirstFailure(slots[1..], folder, glob, i - 1);
      if s.required then
        match glob(folder, s.filename)
        case BadPattern => Panic
        case Entries(es) =>
          var n := |FoundPaths(es)|;
          if n == 0 || (s.sort == Single && n > 1) then Ok(false)
          else rest
      else rest
  }

  /** The scan stops at the first failing slot: once a prefix of the slots has
      decided against the folder (or aborted), appending more slots changes
      nothing; once the prefix has passed, the answer is the suffix's. */
  lemma {:induction false} ScanStopsAtFirstFailure(a: seq<DataSlotSpec>, b: seq<DataSlotSpec>, folder: Path, glob: Glob)
    ensures CheckIfDirMatchesSlots(a, folder, glob) != Ok(true) ==>
      CheckIfDirMatchesSlots(a + b, folder, glob) == CheckIfDirMatchesSlots(a, folder, glob)
    ensures CheckIfDirMatchesSlots(a, folder, glob) == Ok(true) ==>
      CheckIfDirMatchesSlots(a + b, folder, glob) == CheckIfDirMatchesSlots(b, folder, glob)
    decreases |a|
  {
    if |a| == 0 {
      assert a + b == b;
    } else {
      assert (a + b)[1..] == a[1..] + b;
      ScanStopsAtFirstFailure(a[1..], b, folder, glob);
    }
  }

  /** The required slots, in declared order. */
  function RequiredSlots(slots: seq<DataSlotSpec>): (r: seq<DataSlotSpec>)
    ensures |r| <= |slots|
    ensures forall k :: 0 <= k < |r| ==> r[k].required && r[k] in slots
    ensures forall i :: 0 <= i < |slots| && slots[i].required ==> slots[i] in r
    ensures IsSubsequence(r, slots)
    ensures forall s :: multiset(r)[s] == (if s.required then multiset(slots)[s] else 0)
  {
    assert |slots| > 0 ==> slots == [slots[0]] + slots[1..];
    if |slots| == 0 then []
    else if slots[0].required then
      var rest := RequiredSlots(slots[1..]);
      assert ([slots[0]] + rest)[1..] == rest;
      [slots[0]] + rest
    else RequiredSlots(slots[1..])
  }

  /** Slots that are not required never affect the answer: dropping them all
      gives the same answer, whatever their searches would find. */
  lemma {:induction false} OptionalSlotsIrrelevant(slots: seq<DataSlotSpec>, folder: Path, glob: Glob)
    ensures CheckIfDirMatchesSlots(slots, folder, glob) == CheckIfDirMatchesSlots(RequiredSlots(slots), folder, glob)
    decreases |slots|
  {
    if |slots| > 0 {
      var tail := RequiredSlots(slots[1..]);
      OptionalSlotsIrrelevant(slots[1..], folder, glob);
      CheckUnfold(slots, folder, glob);
      if slots[0].required {
        var r := [slots[0]] + tail;
        assert RequiredSlots(slots) == r;
        assert r[0] == slots[0] && r[1..] == tail;
        CheckUnfold(r, folder, glob);
      } else {
        assert RequiredSlots(slots) == tail;
      }
    }
  }

  /** What one slot does to the answer of the slots after it. */
  function ScanStep(s: DataSlotSpec, folder: Path, glob: Glob, rest: Outcome<bool>): Outcome<bool>
  {
    if !s.required then rest
    else match glob(folder, s.filename)
      case BadPattern => Panic
      case Entries(es) =>
        if |FoundPaths(es)| == 0 || (s.sort == Single && |FoundPaths(es)| > 1) then Ok(false) else rest
  }

  /** One step of the scan. */
  lemma CheckUnfold(slots: seq<DataSlotSpec>, folder: Path, glob: Glob)
    requires |slots| > 0
    ensures CheckIfDirMatchesSlots(slots, folder, glob) ==
      ScanStep(slots[0], folder, glob, CheckIfDirMatchesSlots(slots[1..], folder, glob))
  {
  }

  /** One required slot on its own: a `Single` slot accepts exactly one
      match; an `Ascending` or `Descending` slot accepts any positive number;
      no match is a rejection. */
  lemma OneRequiredSlot(s: DataSlotSpec, folder: Path, glob: Glob)
    requires s.required && glob(folder, s.filename).Entries?
    ensures s.sort == Single ==>
      (CheckIfDirMatchesSlots([s], folder, glob) == Ok(true) <==> MatchCount(glob(folder, s.filename)) == 1)
    ensures s.sort != Single ==>
      (CheckIfDirMatchesSlots([s], folder, glob) == Ok(true) <==> MatchCount(glob(folder, s.filename)) >= 1)
    ensures MatchCount(glob(folder, s.filename)) == 0 ==> CheckIfDirMatchesSlots([s], folder, glob) == Ok(false)
  {
    if MatchCount(glob(folder, s.filename)) == 0 {
      assert FirstFailure([s], folder, glob, 0);
    }
  }

  // The matcher that uses the hidden-file filter.

  /** A slot's visible matches are acceptable. */
  predicate VisiblePasses(s: DataSlotSpec, folder: Path, glob: Glob)
  {
    !s.required ||
    (GetGlobPaths(glob(folder, s.filename)).Ok? &&
     var n := |GetGlobPaths(glob(folder, s.filename)).value|;
     n >= 1 && (s.sort == Single ==> n <= 1))
  }

  /** The folder matcher counting matches through `get_glob_paths`, as every
      other file search of the packager does: hidden files are not counted,
      and a pattern that does not parse is an error returned to the caller
      rather than an abort. */
  function CheckIfDirMatchesVisibleSlots(slots: seq<DataSlotSpec>, folder: Path, glob: Glob): (r: Outcome<bool>)
    ensures r == Ok(true) <==> forall i :: 0 <= i < |slots| ==> VisiblePasses(slots[i], folder, glob)
    ensures r.Err? ==> exists i :: 0 <= i < |slots| && slots[i].required && glob(folder, slots[i].filename).BadPattern?
    decreases |slots|
  {
    if |slots| == 0 then Ok(true)
    else
      var s := slots[0];
      var rest := CheckIfDirMatchesVisibleSlots(slots[1..], folder, glob);
      assert forall i :: 1 <= i < |slots| ==> slots[i] == slots[1..][i - 1];
      if s.required then
        match GetGlobPaths(glob(folder, s.filename))
        case Err(e) => Err(e)
        case Panic => Panic
        case Ok(ps) =>
          if |ps| == 0 || (s.sort == Single && |ps| > 1) then Ok(false)
          else rest
      else rest
  }

  /** Two filesystems whose visible matches agree on every required slot give
      the same answer. */
  lemma {:induction false} VisibleMatchDependsOnVisibleFiles(slots: seq<DataSlotSpec>, folder: Path, g1: Glob, g2: Glob)
    requires forall i :: 0 <= i < |slots| && slots[i].required ==>
      GetGlobPaths(g1(folder, slots[i].filename)) == GetGlobPaths(g2(folder, slots[i].filename))
    ensures CheckIfDirMatchesVisibleSlots(slots, folder, g1) == CheckIfDirMatchesVisibleSlots(slots, folder, g2)
    decreases |slots|
  {
    if |slots| > 0 {
      assert forall i :: 1 <= i < |slots| ==> slots[i] == slots[1..][i - 1];
      VisibleMatchDependsOnVisibleFiles(slots[1..], folder, g1, g2);
    }
  }

  /** A hidden file added to any search leaves the filtered matcher's answer
      unchanged. */
  lemma HiddenFileIgnoredByVisibleMatch(slots: seq<DataSlotSpec>, folder: Path, glob: Glob,
                                        pattern: string, pre: seq<GlobEntry>, hidden: Path, post: seq<GlobEntry>)
    requires glob(folder, pattern) == Entries(pre + post)
    requires FileName(hidden).Some? && IsHiddenName(FileName(hidden).value)
    ensures var g2 := (f: Path, q: string) => if f == folder && q == pattern then Entries(pre + [Found(hidden)] + post) else glob(f, q);
      CheckIfDirMatchesVisibleSlots(slots, folder, g2) == CheckIfDirMatchesVisibleSlots(slots, folder, glob)
  {
    var g2 := (f: Path, q: string) => if f == folder && q == pattern then Entries(pre + [Found(hidden)] + post) else glob(f, q);
    HiddenEntryIgnored(pre, hidden, post);
    VisibleMatchDependsOnVisibleFiles(slots, folder, g2, glob);
  }

  /** A game folder holding `game.cue` and the hidden `._game.cue` that some
      file managers leave beside it, searched with one required `Single`
      slot `*.cue`. */
  function CueFolder(): Path
  {
    Path([Normal("game")])
  }

  function CueGlob(): Glob
  {
    (f: Path, q: string) =>
      Entries([Found(Child(f, "game.cue")), Found(Child(f, "._game.cue"))])
  }

  const CueSlot: DataSlotSpec := DataSlotSpec(100, "*.cue", Single, true, None)

  /** The folder is rejected by the matcher as written, because the hidden
      file is counted, yet accepted by the matcher that filters hidden files,
      whose single visible match is the one the filename derivation also
      sees. */
  lemma HiddenFileRejectsFolder()
    ensures CheckIfDirMatchesSlots([CueSlot], CueFolder(), CueGlob()) == Ok(false)
    ensures CheckIfDirMatchesVisibleSlots([CueSlot], CueFolder(), CueGlob()) == Ok(true)
    ensures GetGlobPaths(CueGlob()(CueFolder(), "*.cue")) == Ok([Child(CueFolder(), "game.cue")])
  {
    var es := [Found(Child(CueFolder(), "game.cue")), Found(Child(CueFolder(), "._game.cue"))];
    assert es[1..] == [Found(Child(CueFolder(), "._game.cue"))];
    assert es[1..][1..] == [];
    assert FileName(Child(CueFolder(), "._game.cue")) == Some("._game.cue");
    assert FileName(Child(CueFolder(), "game.cue")) == Some("game.cue");
    assert FoundPaths(es) == [Child(CueFolder(), "game.cue"), Child(CueFolder(), "._game.cue")];
    assert IsHiddenName("._game.cue") && !IsHiddenName("game.cue");
    assert FilterVisible(es[1..][1..]) == Ok([]);
    assert FilterVisible(es[1..]) == Ok([]);
    assert [Child(CueFolder(), "game.cue")] + [] == [Child(CueFolder(), "game.cue")];
    assert FilterVisible(es) == Ok([Child(CueFolder(), "game.cue")]);
    assert FirstFailure([CueSlot], CueFolder(), CueGlob(), 0);
  }
}

=== FILE: outcomes.dfy ===
/** Failure-carrying datatypes shared by the packager model.

    The source returns `Result<_, Box<dyn Error>>` and, in several places,
    calls `unwrap()`, which aborts the process instead of returning an error.
    `Outcome` keeps the two apart: `Err` is an error handed back to the caller
    with `?`, `Panic` is an abort. */
module Outcomes {

  /** A value that may be absent, like Rust's `Option`. */
  datatype Option<+T> = None | Some(value: T)

  /** The only error the modelled core can return: the glob pattern itself
      could not be parsed. */
  datatype GlobError = PatternError

  /** What a fallible call of the source ends in. */
  datatype Outcome<+T> = Ok(value: T) | Err(error: GlobError) | Panic
}

=== FILE: paths.dfy ===
/** Filesystem paths as the standard library's `Path::components` yields them,
    with the two queries the core uses: `file_name` and `file_stem`. */
module Paths {
  import opened Outcomes

  /** One component of a path. `components()` also yields a leading `.`
      (`CurDir`) and a Windows prefix; neither is modelled, because
      `file_name` never returns them and the core asks nothing else. */
  datatype Component = RootDir | ParentDir | Normal(name: string)

  datatype Path = Path(components: seq<Component>)

  /** `Path::file_name`: the final component when it is a normal name; no name
      for the root, for a path ending in `..`, or for the empty path. */
  function FileName(p: Path): (r: Option<string>)
    ensures r.Some? ==> Normal(r.value) in p.components
    ensures r.Some? <==> |p.components| > 0 && p.components[|p.components| - 1].Normal?
    ensures r.Some? ==> p.components[|p.components| - 1] == Normal(r.value)
    ensures p.components == [] ==> r.None?
  {
    if |p.components| > 0 && p.components[|p.components| - 1].Normal?
    then Some(p.components[|p.components| - 1].name)
    else None
  }

  /** Appends one normal component, as `Path::join` does with a relative name. */
  function Child(p: Path, name: string): Path
  {
    Path(p.components + [Normal(name)])
  }

  /** Joining a name onto a folder and asking for the file name gives the
      name back, whatever the folder; a path ending in the root or in `..`
      has no file name. */
  lemma FileNameOfChild(p: Path, name: string)
    ensures FileName(Child(p, name)) == Some(name)
    ensures FileName(Path(p.components + [ParentDir])).None?
    ensures FileName(Path(p.components + [RootDir])).None?
  {
  }

  /** The index of the last `.` in `s`, if any. */
  function LastDot(s: string): (r: Option<nat>)
    ensures r.Some? ==> r.value < |s| && s[r.value] == '.'
    ensures r.Some? ==> forall k :: r.value < k < |s| ==> s[k] != '.'
    ensures r.None? ==> forall k :: 0 <= k < |s| ==> s[k] != '.'
  {
    if |s| == 0 then None
    else if s[|s| - 1] == '.' then Some(|s| - 1)
    else LastDot(s[..|s| - 1])
  }

  /** The stem of a file name: the text before the last `.`, unless there is
      no `.` or the only one that counts is the leading `.` of a hidden name,
      in which case the whole name. */
  function StemOf(name: string): (stem: string)
    ensures |stem| <= |name| && stem == name[..|stem|]
    ensures stem != name ==> 0 < |stem| < |name| && name[|stem|] == '.'
    ensures stem != name ==> forall k :: |stem| < k < |name| ==> name[k] != '.'
    ensures stem == name ==> forall k :: 0 < k < |name| ==> name[k] != '.'
  {
    match LastDot(name)
    case None => name
    case Some(k) => if k == 0 then name else name[..k]
  }

  /** The extension of a file name: the text after the last `.` when that dot
      is not the leading one. */
  function ExtensionOf(name: string): Option<string>
  {
    match LastDot(name)
    case None => None
    case Some(k) => if k == 0 then None else Some(name[k + 1..])
  }

  /** `Path::file_stem`: the stem of the file name, absent exactly when the
      file name is. */
  function FileStem(p: Path): (r: Option<string>)
    ensures r.Some? <==> FileName(p).Some?
    ensures r.Some? ==> r.value == StemOf(FileName(p).value)
  {
    match FileName(p)
    case None => None
    case Some(n) => Some(StemOf(n))
  }

  /** Stem and extension split a file name without losing anything: the name
      is the stem, followed by a dot and the extension when there is one. */
  lemma StemExtensionRoundTrip(name: string)
    ensures ExtensionOf(name).None? ==> StemOf(name) == name
    ensures ExtensionOf(name).Some? ==> StemOf(name) + "." + ExtensionOf(name).value == name
    ensures ExtensionOf(name).Some? ==> '.' !in ExtensionOf(name).value
  {
    match LastDot(name)
    case None =>
    case Some(k) =>
      if k != 0 {
        assert name == name[..k] + "." + name[k + 1..];
      }
  }
}

=== FILE: scenarios.dfy ===
/** The cases the source's own unit tests describe, stated over the model.
    The filesystem each case builds is written as the glob it would answer
    with. */
module Scenarios {
  import opened Outcomes
  import opened Paths
  import opened GlobStuff
  import opened SerdeStructs
  import opened Lib

  function FolderAt(names: seq<string>): Path
  {
    Path(seq(|names|, i requires 0 <= i < |names| => Normal(names[i])))
  }

  const SlotA: DataSlotSpec := DataSlotSpec(22, "file_A.bin", Single, true, None)
  const SlotB: DataSlotSpec := DataSlotSpec(23, "file_B.bin", Single, true, None)

  const NoOverride: Overrides := Overrides(None, None, None, None)

  /** An override that replaces only the slots replaces the whole list. */
  lemma SlotsOverrideCase()
    ensures var p := InstancePackager("some/folder/somewhere/", [SlotA],
                                      Some(map["overrider" := NoOverride.(dataSlots := Some([SlotB]))]),
                                      "abc", None, None);
      && GetSlots(p, "overrider") == [SlotB]
      && GetSlots(p, "non_overrider") == [SlotA]
  {
  }

  /** Two override writes win over one global write. */
  lemma MemoryWritesOverrideCase()
    ensures var global := MemoryWriteStr("0x1345", "0x123");
            var local := MemoryWriteStr("0x987654", "0x9876");
            var p := InstancePackager("some/folder/somewhere/", [SlotA],
                                      Some(map["overrider" := NoOverride.(memoryWrites := Some([local, local]))]),
                                      "abc", Some([global]), None);
      && GetMemoryWrites(p, "non_overrider") == [global]
      && |GetMemoryWrites(p, "overrider")| == 2 && GetMemoryWrites(p, "overrider")[0] == local
  {
  }

  /** The override's core select replaces the global one. */
  lemma CoreSelectOverrideCase()
    ensures var p := InstancePackager("some/folder/somewhere/", [],
                                      Some(map["overrider" := NoOverride.(coreSelect := Some(CoreSelect(456, false)))]),
                                      "abc", None, Some(CoreSelect(123, true)));
      && GetCoreSelect(p, "non_overrider") == Some(CoreSelect(123, true))
      && GetCoreSelect(p, "overrider") == Some(CoreSelect(456, false))
  {
  }

  /** Without name-source slots the name is the folder's own leaf name. The
      folder `overridden_file_name` has no override of its own (the override
      is keyed `overrider`), so it too gets its leaf name; only `overrider`
      gets the override. */
  lemma FilenameFallbackCase(glob: Glob)
    ensures var p := InstancePackager("some/folder/somewhere/", [],
                                      Some(map["overrider" := NoOverride.(filename := Some("overridden_file_name"))]),
                                      "abc", None, Some(CoreSelect(123, true)));
      && !HasFilenameOverride(p, "overridden_file_name")
      && GetFilename(p, FolderAt(["fake", "folder", "game_name"]), glob) == Ok("game_name")
      && GetFilename(p, FolderAt(["fake", "folder", "overridden_file_name"]), glob) == Ok("overridden_file_name")
      && GetFilename(p, FolderAt(["fake", "folder", "overrider"]), glob) == Ok("overridden_file_name")
  {
  }

  function CueConfig(): InstancePackager
  {
    InstancePackager("some/folder/somewhere/",
                     [DataSlotSpec(123, "*.cue", Single, true, Some(true))],
                     Some(map["overrider" := NoOverride.(filename := Some("overridden_file_name"))]),
                     "abc", None, Some(CoreSelect(123, true)))
  }

  /** Every folder holds one cue sheet, `cue_file_name.cue`. */
  function CueSheetGlob(): Glob
  {
    (f: Path, q: string) => Entries([Found(Child(f, "cue_file_name.cue"))])
  }

  lemma CueSheetStem()
    ensures StemOf("cue_file_name.cue") == "cue_file_name"
  {
    var name := "cue_file_name.cue";
    assert name[13] == '.' && name[14] != '.' && name[15] != '.' && name[16] != '.';
    assert LastDot(name) == Some(13);
  }

  /** A `*.cue` name-source slot names the output after the cue sheet's
      stem. */
  lemma FilenameFromCueCase()
    ensures GetFilename(CueConfig(), FolderAt(["fake", "folder", "game_name"]), CueSheetGlob()) == Ok("cue_file_name")
  {
    var folder := FolderAt(["fake", "folder", "game_name"]);
    var cue := Child(folder, "cue_file_name.cue");
    assert FileName(folder) == Some("game_name");
    assert FileName(cue) == Some("cue_file_name.cue");
    assert !IsHiddenName("cue_file_name.cue");
    AllVisibleKept([Found(cue)]);
    assert FoundPaths([Found(cue)]) == [cue];
    assert FirstSettles(CueConfig().dataSlots, folder, CueSheetGlob(), 0);
    CueSheetStem();
  }

  /** The folder with a file name override keeps it, cue sheet or not. */
  lemma FilenameOverrideBeatsCueCase()
    ensures GetFilename(CueConfig(), FolderAt(["fake", "folder", "overrider"]), CueSheetGlob()) == Ok("overridden_file_name")
  {
    assert FileName(FolderAt(["fake", "folder", "overrider"])) == Some("overrider");
  }

  const BinSlot: DataSlotSpec := DataSlotSpec(101, "*.bin", Single, true, None)
  const AscendingCueSlot: DataSlotSpec := DataSlotSpec(102, "*.cue", Ascending, true, None)

  /** A folder's files, answered per pattern by extension. */
  function FilesGlob(bins: seq<string>, cues: seq<string>): Glob
  {
    (f: Path, q: string) =>
      if q == "*.bin" then Entries(seq(|bins|, i requires 0 <= i < |bins| => Found(Child(f, bins[i]))))
      else if q == "*.cue" then Entries(seq(|cues|, i requires 0 <= i < |cues| => Found(Child(f, cues[i]))))
      else Entries([])
  }

  /** One `.bin` for the `Single` slot and two `.cue` files for the
      `Ascending` slot match; two `.bin` files or none do not. */
  lemma MatcherCases(folder: Path)
    ensures CheckIfDirMatchesSlots([BinSlot, AscendingCueSlot], folder,
              FilesGlob(["Something.bin"], ["Something (1).cue", "Something (2).cue"])) == Ok(true)
    ensures CheckIfDirMatchesSlots([BinSlot, AscendingCueSlot], folder,
              FilesGlob(["Something.bin", "Something_else.bin"], ["Something (1).cue", "Something (2).cue"])) == Ok(false)
    ensures CheckIfDirMatchesSlots([BinSlot, AscendingCueSlot], folder, FilesGlob([], [])) == Ok(false)
  {
    var g1 := FilesGlob(["Something.bin"], ["Something (1).cue", "Something (2).cue"]);
    assert MatchCount(g1(folder, "*.bin")) == 1;
    assert MatchCount(g1(folder, "*.cue")) == 2;
    var g2 := FilesGlob(["Something.bin", "Something_else.bin"], ["Something (1).cue", "Something (2).cue"]);
    assert MatchCount(g2(folder, "*.bin")) == 2;
    assert FirstFailure([BinSlot, AscendingCueSlot], folder, g2, 0);
    var g3 := FilesGlob([], []);
    assert MatchCount(g3(folder, "*.bin")) == 0;
    assert FirstFailure([BinSlot, AscendingCueSlot], folder, g3, 0);
  }
}

=== FILE: serde_structs.dfy ===
/** The typed configuration of one core (`instance-packager.json`), its
    per-folder override resolution, output-filename derivation, and the
    default instance descriptor. */
module SerdeStructs {
  import opened Outcomes
  import opened Paths
  import opened GlobStuff

  /** Rust's `usize` on a 64-bit target. */
  type Usize = n: int | 0 <= n < 0x1_0000_0000_0000_0000

  /** How the files one slot matches are ordered. */
  datatype Sort = Single | Ascending | Descending

  /** One data slot of the configuration: a glob relative to the folder. */
  datatype DataSlotSpec = DataSlotSpec(
    id: Usize,
    filename: string,
    sort: Sort,
    required: bool,
    asFilename: Option<bool>)

  /** The four shapes of value the descriptor carries. */
  datatype SlotsCoresAndWrites =
    | CoreSelect(id: Usize, select: bool)
    | DataSlot(id: Usize, filename: string)
    | MemoryWriteNum(numAddress: Usize, numData: Usize)
    | MemoryWriteStr(strAddress: string, strData: string)

  /** A per-folder override: each present field replaces the global one. */
  datatype Overrides = Overrides(
    dataSlots: Option<seq<DataSlotSpec>>,
    filename: Option<string>,
    memoryWrites: Option<seq<SlotsCoresAndWrites>>,
    coreSelect: Option<SlotsCoresAndWrites>)

  /** The whole configuration of one core. */
  datatype InstancePackager = InstancePackager(
    output: string,
    dataSlots: seq<DataSlotSpec>,
    overrides: Option<map<string, Overrides>>,
    platformId: string,
    memoryWrites: Option<seq<SlotsCoresAndWrites>>,
    coreSelect: Option<SlotsCoresAndWrites>)

  /** The override block keyed by exactly this folder name, if any. */
  function OverrideFor(p: InstancePackager, folderName: string): Option<Overrides>
  {
    if p.overrides.Some? && folderName in p.overrides.value
    then Some(p.overrides.value[folderName])
    else None
  }

  /** The one fallback rule every resolver shares: the override's field when
      the folder has an override block that sets it, otherwise the global
      value. */
  function Prefer<T>(field: Option<T>, global: T): T
  {
    match field
    case Some(v) => v
    case None => global
  }

  // The override conditions, stated directly on the configuration.

  predicate HasSlotsOverride(p: InstancePackager, f: string)
  {
    p.overrides.Some? && f in p.overrides.value && p.overrides.value[f].dataSlots.Some?
  }

  predicate HasWritesOverride(p: InstancePackager, f: string)
  {
    p.overrides.Some? && f in p.overrides.value && p.overrides.value[f].memoryWrites.Some?
  }

  predicate HasCoreSelectOverride(p: InstancePackager, f: string)
  {
    p.overrides.Some? && f in p.overrides.value && p.overrides.value[f].coreSelect.Some?
  }

  predicate HasFilenameOverride(p: InstancePackager, f: string)
  {
    p.overrides.Some? && f in p.overrides.value && p.overrides.value[f].filename.Some?
  }

  /** `get_slots`: the override's slot list, whole, or the global one. */
  function GetSlots(p: InstancePackager, folderName: string): (r: seq<DataSlotSpec>)
    ensures HasSlotsOverride(p, folderName) ==> r == p.overrides.value[folderName].dataSlots.value
    ensures !HasSlotsOverride(p, folderName) ==> r == p.dataSlots
  {
    var o := OverrideFor(p, folderName);
    Prefer(if o.Some? then o.value.dataSlots else None, p.dataSlots)
  }

  /** `get_memory_writes`: the override's list, else the global list, else
      nothing. */
  function GetMemoryWrites(p: InstancePackager, folderName: string): (r: seq<SlotsCoresAndWrites>)
    ensures HasWritesOverride(p, folderName) ==> r == p.overrides.value[folderName].memoryWrites.value
    ensures !HasWritesOverride(p, folderName) && p.memoryWrites.Some? ==> r == p.memoryWrites.value
    ensures !HasWritesOverride(p, folderName) && p.memoryWrites.None? ==> r == []
  {
    var o := OverrideFor(p, folderName);
    Prefer(if o.Some? then o.value.memoryWrites else None, Prefer(p.memoryWrites, []))
  }

  /** `get_core_select`: the override's directive, else the global one, which
      may be absent. */
  function GetCoreSelect(p: InstancePackager, folderName: string): (r: Option<SlotsCoresAndWrites>)
    ensures HasCoreSelectOverride(p, folderName) ==> r == p.overrides.value[folderName].coreSelect
    ensures !HasCoreSelectOverride(p, folderName) ==> r == p.coreSelect
    ensures r.None? ==> p.coreSelect.None?
  {
    var o := OverrideFor(p, folderName);
    if o.Some? && o.value.coreSelect.Some? then o.value.coreSelect else p.coreSelect
  }

  // Filename derivation.

  /** A slot that may name the output file. */
  predicate IsNameSource(s: DataSlotSpec)
  {
    s.asFilename == Some(true)
  }

  /** A name-source slot whose search does not come back as an empty list:
      the scan stops at it, with a name, an error or an abort. */
  predicate Settles(s: DataSlotSpec, folder: Path, glob: Glob)
  {
    IsNameSource(s) && GetGlobPaths(glob(folder, s.filename)) != Ok([])
  }

  /** Slot `i` is the first that settles. */
  predicate FirstSettles(slots: seq<DataSlotSpec>, folder: Path, glob: Glob, i: int)
  {
    0 <= i < |slots| && Settles(slots[i], folder, glob) &&
    forall j :: 0 <= j < i ==> !Settles(slots[j], folder, glob)
  }

  /** What a settling slot decides: the stem of its first visible match, or
      the error or abort of its search. */
  function Verdict(s: DataSlotSpec, folder: Path, glob: Glob): (r: Outcome<string>)
    requires Settles(s, folder, glob)
    ensures r.Err? <==> GetGlobPaths(glob(folder, s.filename)).Err?
    ensures r.Panic? <==> GetGlobPaths(glob(folder, s.filename)).Panic?
    ensures GetGlobPaths(glob(folder, s.filename)).Ok? ==>
      |GetGlobPaths(glob(folder, s.filename)).value| > 0 &&
      r == Ok(FileStem(GetGlobPaths(glob(folder, s.filename)).value[0]).value)
    ensures r.Ok? ==> exists ps :: GetGlobPaths(glob(folder, s.filename)) == Ok(ps) && |ps| > 0 && FileStem(ps[0]) == Some(r.value)
  {
    match GetGlobPaths(glob(folder, s.filename))
    case Err(e) => Err(e)
    case Panic => Panic
    case Ok(ps) => Ok(FileStem(ps[0]).value)
  }

  /** The scan of `get_filename` over the global slots, in declared order,
      skipping slots that are not name sources; `fallback` when none
      settles. */
  function StemFromSlots(slots: seq<DataSlotSpec>, folder: Path, glob: Glob, fallback: string): (r: Outcome<string>)
    ensures (forall i :: 0 <= i < |slots| ==> !Settles(slots[i], folder, glob)) ==> r == Ok(fallback)
    ensures forall i :: FirstSettles(slots, folder, glob, i) ==> r == Verdict(slots[i], folder, glob)
    decreases |slots|
  {
    if |slots| == 0 then Ok(fallback)
    else if Settles(slots[0], folder, glob) then
      Verdict(slots[0], folder, glob)
    else
      FirstSettlesShift(slots, folder, glob);
      StemFromSlots(slots[1..], folder, glob, fallback)
  }

  /** When the first slot does not settle, the first settling slot of the
      list is the first settling slot of its tail, one place later. */
  lemma FirstSettlesShift(slots: seq<DataSlotSpec>, folder: Path, glob: Glob)
    requires |slots| > 0 && !Settles(slots[0], folder, glob)
    ensures forall i :: FirstSettles(slots, folder, glob, i) ==> FirstSettles(slots[1..], folder, glob, i - 1)
    ensures (forall i :: 0 <= i < |slots[1..]| ==> !Settles(slots[1..][i], folder, glob)) ==>
      forall i :: 0 <= i < |slots| ==> !Settles(slots[i], folder, glob)
  {
    assert forall i :: 1 <= i < |slots| ==> slots[i] == slots[1..][i - 1];
  }

  /** `get_filename`: the override's file name for the folder's leaf name;
      otherwise the stem of the first visible match of the first name-source
      global slot that matches anything; otherwise the folder's leaf name. A
      folder path without a leaf name aborts. */
  function GetFilename(p: InstancePackager, folder: Path, glob: Glob): (r: Outcome<string>)
    ensures FileName(folder).None? ==> r == Panic
    ensures FileName(folder).Some? && HasFilenameOverride(p, FileName(folder).value) ==>
      r == Ok(p.overrides.value[FileName(folder).value].filename.value)
    ensures (FileName(folder).Some? && !HasFilenameOverride(p, FileName(folder).value) &&
             forall i :: 0 <= i < |p.dataSlots| ==> !Settles(p.dataSlots[i], folder, glob)) ==>
      r == Ok(FileName(folder).value)
    ensures FileName(folder).Some? && !HasFilenameOverride(p, FileName(folder).value) ==>
      forall i :: FirstSettles(p.dataSlots, folder, glob, i) ==> r == Verdict(p.dataSlots[i], folder, glob)
  {
    match FileName(folder)
    case None => Panic
    case Some(name) =>
      var o := OverrideFor(p, name);
      if o.Some? && o.value.filename.Some? then Ok(o.value.filename.value)
      else StemFromSlots(p.dataSlots, folder, glob, name)
  }

  /** Override lookup is keyed by the exact folder name: setting the override
      of another folder changes none of this folder's resolved values. */
  lemma OtherFolderOverrideIrrelevant(p: InstancePackager, f: string, g: string, o: Overrides,
                                      folder: Path, glob: Glob)
    requires g != f && FileName(folder) == Some(f)
    ensures var m := if p.overrides.Some? then p.overrides.value else map[];
            var p2 := p.(overrides := Some(m[g := o]));
      && GetSlots(p2, f) == GetSlots(p, f)
      && GetMemoryWrites(p2, f) == GetMemoryWrites(p, f)
      && GetCoreSelect(p2, f) == GetCoreSelect(p, f)
      && GetFilename(p2, folder, glob) == GetFilename(p, folder, glob)
  {
  }

  /** An override that sets a field hides the global value completely: changing
      the global slots, memory writes or core select leaves an overridden
      folder's value as it was. */
  lemma OverrideHidesGlobal(p: InstancePackager, f: string,
                            slots: seq<DataSlotSpec>, writes: Option<seq<SlotsCoresAndWrites>>,
                            select: Option<SlotsCoresAndWrites>)
    ensures HasSlotsOverride(p, f) ==> GetSlots(p.(dataSlots := slots), f) == GetSlots(p, f)
    ensures HasWritesOverride(p, f) ==> GetMemoryWrites(p.(memoryWrites := writes), f) == GetMemoryWrites(p, f)
    ensures HasCoreSelectOverride(p, f) ==> GetCoreSelect(p.(coreSelect := select), f) == GetCoreSelect(p, f)
  {
  }

  /** An override file name is used without consulting the filesystem: any two
      filesystems give the same name. */
  lemma FilenameOverrideSkipsGlob(p: InstancePackager, folder: Path, g1: Glob, g2: Glob)
    requires FileName(folder).Some? && HasFilenameOverride(p, FileName(folder).value)
    ensures GetFilename(p, folder, g1) == GetFilename(p, folder, g2) == Ok(p.overrides.value[FileName(folder).value].filename.value)
  {
  }

  /** The name-source slots, in declared order: the filter `get_filename`
      applies to the global slots before it searches. */
  function NameSources(slots: seq<DataSlotSpec>): (r: seq<DataSlotSpec>)
    ensures |r| <= |slots|
    ensures forall k :: 0 <= k < |r| ==> IsNameSource(r[k]) && r[k] in slots
    ensures forall i :: 0 <= i < |slots| && IsNameSource(slots[i]) ==> slots[i] in r
    ensures IsSubsequence(r, slots)
    ensures forall s :: multiset(r)[s] == (if IsNameSource(s) then multiset(slots)[s] else 0)
  {
    assert |slots| > 0 ==> slots == [slots[0]] + slots[1..];
    if |slots| == 0 then []
    else if IsNameSource(slots[0]) then
      var rest := NameSources(slots[1..]);
      assert ([slots[0]] + rest)[1..] == rest;
      [slots[0]] + rest
    else NameSources(slots[1..])
  }

  /** Slots whose `as_filename` is absent or false never influence the scan:
      scanning only the name sources gives the same outcome, whatever the
      other slots' searches would find. */
  lemma {:induction false} StemIgnoresOtherSlots(slots: seq<DataSlotSpec>, folder: Path, glob: Glob, fallback: string)
    ensures StemFromSlots(slots, folder, glob, fallback) == StemFromSlots(NameSources(slots), folder, glob, fallback)
    decreases |slots|
  {
    if |slots| > 0 {
      StemIgnoresOtherSlots(slots[1..], folder, glob, fallback);
      if IsNameSource(slots[0]) {
        assert ([slots[0]] + NameSources(slots[1..]))[1..] == NameSources(slots[1..]);
        assert ([slots[0]] + NameSources(slots[1..]))[0] == slots[0];
      }
    }
  }

  /** Filename derivation never reads the override's slot list: replacing the
      folder's override slots leaves the derived name as it was. */
  lemma FilenameIgnoresOverrideSlots(p: InstancePackager, folder: Path, glob: Glob, slots: Option<seq<DataSlotSpec>>)
    requires FileName(folder).Some? && p.overrides.Some? && FileName(folder).value in p.overrides.value
    ensures var m := p.overrides.value;
            var name := FileName(folder).value;
      GetFilename(p.(overrides := Some(m[name := m[name].(dataSlots := slots)])), folder, glob) == GetFilename(p, folder, glob)
  {
  }

  /** The scan aborts only when a name source's search yields a path without
      a final component. */
  lemma {:induction false} StemNoAbort(slots: seq<DataSlotSpec>, folder: Path, glob: Glob, fallback: string)
    ensures StemFromSlots(slots, folder, glob, fallback) == Panic ==>
      exists i :: 0 <= i < |slots| && IsNameSource(slots[i]) && !AllNamed(glob(folder, slots[i].filename))
    decreases |slots|
  {
    if |slots| > 0 {
      StemNoAbort(slots[1..], folder, glob, fallback);
      if StemFromSlots(slots, folder, glob, fallback) == Panic && !Settles(slots[0], folder, glob) {
        var i :| 0 <= i < |slots[1..]| && IsNameSource(slots[1..][i]) && !AllNamed(glob(folder, slots[1..][i].filename));
        assert slots[i + 1] == slots[1..][i];
      }
    }
  }

  /** Filename derivation aborts only for a folder without a leaf name, or
      when a name source's search yields a path without a final component. */
  lemma FilenameAbortCauses(p: InstancePackager, folder: Path, glob: Glob)
    ensures GetFilename(p, folder, glob) == Panic ==>
      FileName(folder).None? ||
      exists i :: 0 <= i < |p.dataSlots| && IsNameSource(p.dataSlots[i]) && !AllNamed(glob(folder, p.dataSlots[i].filename))
  {
    if FileName(folder).Some? {
      StemNoAbort(p.dataSlots, folder, glob, FileName(folder).value);
    }
  }

  // The default instance descriptor.

  /** The version tag every descriptor carries. */
  const Magic: string := "APF_VER_1"

  datatype InstanceJsonInstance = InstanceJsonInstance(
    magic: string,
    coreSelect: Option<SlotsCoresAndWrites>,
    dataPath: string,
    dataSlots: seq<SlotsCoresAndWrites>,
    memoryWrites: seq<SlotsCoresAndWrites>)

  datatype InstanceJson = InstanceJson(instance: InstanceJsonInstance)

  /** `InstanceJSON::new`: a descriptor with the version tag and nothing
      else. */
  function NewInstanceJson(): (j: InstanceJson)
    ensures j.instance.magic == "APF_VER_1"
    ensures j.instance.dataPath == ""
    ensures j.instance.dataSlots == [] && j.instance.memoryWrites == []
    ensures j.instance.coreSelect.None?
  {
    InstanceJson(InstanceJsonInstance(Magic, None, "", [], []))
  }
}
